=== FILE: README.md ===
# ETF uploader: trigger-and-poll client model

This is a Dafny model of the client side of the ETF comparison tool. Its
main parts are:

- **The Compare button.** The user picks yesterday's and today's holdings
  files and presses Compare.
- **Upload and job trigger.** The client uploads both files to a cloud bucket.
  It then deletes the previous Kubernetes analysis job and applies a new one.
- **Polling.** The client polls the bucket under `Reports/` for a `.txt`
  report. A report counts only if it was updated no earlier than the moment
  the button was pressed.
- **Download.** The client downloads the latest such report into a local
  folder.
- **Command classification.** The model covers the lenient command runner of
  the `K8sService` class. Unlike the form's own runner, it classifies a
  command's result instead of throwing.

The modules follow the program:

- `Wrappers`: `Option`, `Result`, and `Outcome` (an operation that completes
  or throws with a message).
- `Text`: .NET's `string.IsNullOrWhiteSpace`, `Path.GetFileName` (.NET
  Framework separators `\`, `/` and `:`) and `Path.Combine`, plus the
  decimal rendering used in the progress caption.
- `Storage`: stored objects and the prefix listing. Also the LINQ chain that
  picks the report: filter on `.txt`, stable `OrderByDescending` on the update
  time, `FirstOrDefault`. Also the inclusive freshness test.
- `Shell`: a finished process as `(exitCode, stdout, stderr)`. The kubectl
  command lines and their inverses. The form's strict `RunCommand`, which
  throws on any non-zero exit.
- `K8sService`: the service's `RunCommand`, `DeleteJob` and `ApplyJob`.
- `ReportPoll`: one download attempt, `TryDownloadReport`, over a local folder
  (a map from path to content). Also the bounded poll loop as a method with
  loop invariants.
- `CompareRun`: the whole click handler, described as the ordered sequence of
  events a run produces: lock, start time, uploads, delete, apply, polls,
  closing dialog, restore.

The world is an explicit parameter:

- the clock reading at the click;
- whether the storage client and each upload complete or throw;
- how each kubectl command finishes;
- for each poll attempt, the bucket listing (or the exception that prevented
  it) and the point, if any, where the local file steps throw.

## Model

| member | source | states |
|---|---|---|
| Text.FileNameIsBareSuffix | src/Client/ETF_Uploader/ETF_Uploader/Form1.cs:233 | `Path.GetFileName` returns a suffix of the path that holds no separator. The character just before it, if any, is a separator, so it is the longest such suffix. |
| Text.CombineThenFileName | src/Client/ETF_Uploader/ETF_Uploader/Form1.cs:233 | Joining the download folder with a bare, non-empty file name and taking the file name again gives that name back. |
| Text.NatToStringRoundTrip | src/Client/ETF_Uploader/ETF_Uploader/Form1.cs:146 | The seconds count shown in the progress caption is a digit string that reads back as the same number. |
| Storage.ListObjectsFilters | src/Client/ETF_Uploader/ETF_Uploader/Form1.cs:217 | The listing holds exactly the bucket's objects whose name starts with the prefix. No other object appears and none under it is missed. |
| Storage.ListObjectsKeepsOrder | src/Client/ETF_Uploader/ETF_Uploader/Form1.cs:217 | The listing keeps the bucket's order. Its k-th object is the bucket object at a position that grows strictly with k, and every bucket position under the prefix appears. So the object the stable sort keeps among equal times is also the first of them in the bucket. |
| Storage.LatestCandidateIsLatest | src/Client/ETF_Uploader/ETF_Uploader/Form1.cs:219-222 | There is no pick exactly when no listed object ends in `.txt`. Otherwise the pick is a `.txt` object, at least as recent as every other `.txt` object, and strictly more recent than every `.txt` object listed before it. That is the stable sort's tie-break. |
| Storage.FreshReportIsLatestTxt | src/Client/ETF_Uploader/ETF_Uploader/Form1.cs:217-229 | A selected report is a bucket object under `Reports/` ending in `.txt` and updated no earlier than the start time. No such candidate is newer. |
| Storage.FreshReportIffFreshCandidate | src/Client/ETF_Uploader/ETF_Uploader/Form1.cs:219-229 | An attempt finds a report exactly when some `.txt` object under `Reports/` has an update time at or after the start time. |
| Storage.FreshnessBoundaryIsInclusive | src/Client/ETF_Uploader/ETF_Uploader/Form1.cs:226-229 | A report updated exactly at the start time is accepted. One updated a tick earlier is rejected. |
| Shell.DeleteCommandRoundTrip | src/Client/ETF_Uploader/ETF_Uploader/Services/K8sService.cs:36 | The job name can be read back from the delete command line. |
| Shell.ApplyCommandRoundTrip | src/Client/ETF_Uploader/ETF_Uploader/Services/K8sService.cs:28 | The manifest path can be read back from between the quotes of the apply command line. |
| Shell.RunCommandStrict | src/Client/ETF_Uploader/ETF_Uploader/Form1.cs:186-205 | The form's runner completes exactly when the exit code is 0. Otherwise it throws with a message that carries stderr and stdout. |
| K8sService.RunCommand | src/Client/ETF_Uploader/ETF_Uploader/Services/K8sService.cs:42-66 | Exit 0 gives stdout, whatever stderr holds. A non-zero exit with non-blank stderr gives `[Error] ` plus stderr. A non-zero exit with blank stderr gives stdout. |
| K8sService.ErrorReportImpliesStrictFailure | src/Client/ETF_Uploader/ETF_Uploader/Services/K8sService.cs:60-63 | Whenever the service returns something other than stdout, it is the tagged stderr, and the form's runner would throw for the same process. |
| K8sService.StrictSuccessImpliesStdout | src/Client/ETF_Uploader/ETF_Uploader/Services/K8sService.cs:60-65 | Where the form's runner completes, the service returns stdout. |
| K8sService.SilentFailureIsNotReported | src/Client/ETF_Uploader/ETF_Uploader/Services/K8sService.cs:60-65 | For a concrete failed exit with whitespace-only stderr, the form's runner throws while the service returns stdout as if nothing failed. |
| K8sService.DeleteJob | src/Client/ETF_Uploader/ETF_Uploader/Services/K8sService.cs:34-37 | The delete command names exactly the job fixed at construction. The result is the classified output. |
| K8sService.ApplyJob | src/Client/ETF_Uploader/ETF_Uploader/Services/K8sService.cs:23-29 | A missing manifest fails with the not-found message and runs nothing. An existing one runs an apply command whose quoted path is exactly that manifest, and returns the classified output. |
| ReportPoll.TryDownloadReport | src/Client/ETF_Uploader/ETF_Uploader/Form1.cs:208-264 | An attempt that selects no fresh report returns false and leaves the folder unchanged. An accepted attempt did select one. |
| ReportPoll.StoreTouchesOnlyItsPath | src/Client/ETF_Uploader/ETF_Uploader/Form1.cs:233-239 | Whatever exception strikes, the file steps change the download folder at most at the report's local path. |
| ReportPoll.StoreAcceptsIff | src/Client/ETF_Uploader/ETF_Uploader/Form1.cs:233-256 | The file steps succeed exactly when all three hold: the object name has no character the path functions refuse anywhere in it (a double quote, `<`, `>`, a vertical bar or a control character); the file name has no wildcard; and either no step throws, or only the delete would throw and there was no old copy. |
| ReportPoll.StoreRejectsUnstorable | src/Client/ETF_Uploader/ETF_Uploader/Form1.cs:233-236 | A name the client cannot store gives a miss under every fault, with the folder untouched. `Path.GetFileName` or the file creation throws before anything is deleted or written. |
| ReportPoll.BarInDirectoryIsRejected | src/Client/ETF_Uploader/ETF_Uploader/Form1.cs:233 | A vertical bar in a directory part of the object name, as in `Reports/a\|b/r.txt`, already makes the attempt a miss, although the file name `r.txt` is harmless. |
| ReportPoll.AcceptedAttemptDownloads | src/Client/ETF_Uploader/ETF_Uploader/Form1.cs:226-256 | An accepted attempt selected a report updated no earlier than the start time, and its full content now sits at its local path. |
| ReportPoll.LocalPathOfReport | src/Client/ETF_Uploader/ETF_Uploader/Form1.cs:233 | A report is saved directly inside the download folder under the object's own file name. That path still ends in `.txt`. |
| ReportPoll.PollForReport | src/Client/ETF_Uploader/ETF_Uploader/Form1.cs:140-158 | Each attempt is `TryDownloadReport` against the same start time, run on the folder the previous attempt left. There are between 1 and 20 attempts. Every attempt but the last failed. Success means the last attempt accepted; failure means all 20 attempts were made. The i-th caption shows i·3 seconds. A success leaves the fresh report's content in the folder. If no attempt could select a report, the folder is unchanged. |
| CompareRun.DeleteCommandIsServiceCommand | src/Client/ETF_Uploader/ETF_Uploader/Form1.cs:133 | The form's delete command is the service's delete command for the job `etf-analysis-job`. |
| CompareRun.ApplyCommandIsServiceCommand | src/Client/ETF_Uploader/ETF_Uploader/Form1.cs:129-136 | The form's apply command is the service's apply command for the fixed manifest path. |
| CompareRun.Prepare | src/Client/ETF_Uploader/ETF_Uploader/Form1.cs:118-136 | Preparation fails exactly when the client creation, an upload, or a command fails. The failure message is that of the first step that failed. |
| CompareRun.PrepareIsOrdered | src/Client/ETF_Uploader/ETF_Uploader/Form1.cs:124-136 | The preparation events are uploads, then delete, then apply, never out of that order. |
| CompareRun.PrepareStopsAtFirstFailure | src/Client/ETF_Uploader/ETF_Uploader/Form1.cs:124-136 | A failed connection or first upload does nothing else. A failed second upload runs no command. A failed delete applies nothing. |
| CompareRun.PrepareCommandOrder | src/Client/ETF_Uploader/ETF_Uploader/Form1.cs:124-136 | Delete runs only after both uploads, and apply only after delete. These two commands are the only ones. When nothing failed, apply has run. |
| CompareRun.AssembleRun | src/Client/ETF_Uploader/ETF_Uploader/Form1.cs:109-178 | A run assembled from its parts is framed by lock and restore. Its phases stay in order, the command order carries over, and every attempt is recorded against the start time. |
| CompareRun.PollAttempts | src/Client/ETF_Uploader/ETF_Uploader/Form1.cs:140-165 | Attempt `k` is `TryDownloadReport` on `env.worlds[k]`, run against the start time on the folder the previous attempt left. The poll events are one per attempt, in the order made, each with the caption for `k`·3 seconds. The phase succeeds exactly when the last attempt accepted, and then shows no dialog. It times out, showing only the timeout dialog, exactly when all 20 attempts failed. |
| CompareRun.PollPhase | src/Client/ETF_Uploader/ETF_Uploader/Form1.cs:140-171 | A failed preparation skips the loop: no attempt is made, the folder is unchanged, and the closing dialog is exactly the error message for that failure. Otherwise the attempts are made as in `PollAttempts`, one poll event each, in order. |
| CompareRun.RunRemote | src/Client/ETF_Uploader/ETF_Uploader/Form1.cs:109-178 | A validated run is framed by lock and restore. Between them the trace holds exactly the steps `Prepare` performed, once each and in its order; then one poll event per attempt, in order; then the closing dialog for the outcome: the failure's message, the timeout message, or none on success. The run fails exactly when `Prepare` reports a failure, and then no attempt is made. Each attempt is `TryDownloadReport` on what the bucket held at that attempt. Timeout is reported exactly when all 20 attempts failed. |
| CompareRun.ConnectFailureShowsNoPreparation | src/Client/ETF_Uploader/ETF_Uploader/Form1.cs:121-124 | When the storage client cannot be created, a run that shows exactly the preparation steps `Prepare` performed shows no upload, no delete and no apply. The exception leaves the try block before the first upload. |
| CompareRun.CleanRunShowsEachStepOnce | src/Client/ETF_Uploader/ETF_Uploader/Form1.cs:124-136 | When preparation completes, the run shows yesterday's upload, today's upload, the delete and the apply right after the start, in that order, and the apply appears nowhere else. |
| CompareRun.CompareClick | src/Client/ETF_Uploader/ETF_Uploader/Form1.cs:97-179 | A blank path (null, empty or whitespace) only shows the path reminder and leaves the button unchanged. Otherwise the button is locked first and re-enabled with its caption last, exactly once. Between them the trace holds exactly the steps `Prepare` performed on the two file names, once each and in order; then one poll event per attempt, in order; then the closing dialog for the outcome. The run fails exactly when that preparation fails. Attempt `k` is `TryDownloadReport` on `env.worlds[k]` with the start time as its bound, run on the folder the previous attempt left. At most 20 attempts are made and the first success wins. Success leaves a fresh report's full content in the download folder. |

## Left out

- The Google Cloud Storage SDK (client creation, upload, listing, download) is a foreign library. Its effects appear as parameters:
  - an `Outcome` per upload;
  - a listing or exception per attempt;
  - a fault point for the local file steps.
- Process spawning through `cmd.exe`, and the reads of the redirected streams, are not modelled. Each command is its `(exitCode, stdout, stderr)` result.
- The form's runner waits for exit before reading the streams. This can hang on a large output, and it is not modelled. A hang is not a result a total model can return.
- `stderr` is an `Option` so that `IsNullOrWhiteSpace` is modelled in full. A stream read never yields null, so `None` is only the null case of that helper.
- WinForms details are left out: drag-and-drop and its extension check, the file dialogs, and the content of the success dialogs and the explorer launch. The model keeps only whether notifying the user throws, because that turns a finished download into a miss.
- `Task.Delay(3000)` and the wall clock are left out. The delay is one loop step, and time stamps are integers on one clock. The "elapsed seconds" figure in the success dialog is not modelled.
- `UpdatedDateTimeOffset` is nullable in the SDK; it is modelled as always present.
- `LogHelper` writes to a log file and swallows its own failures. It is not modelled.
- `GcpService` is a thin wrapper over the storage client that the form does not use, so it is not modelled.
- The credential environment variable and the storage client's configuration are not modelled.
- `EndsWith(".txt")` is culture-sensitive in .NET. It is modelled as an ordinal suffix test.
- The server-side comparison job is not modelled. Its code is not part of this model.
- The run has no explicit "run in progress" rejection. The code's only guard is the disabled button, which WinForms does not click. `CompareClick` therefore models one click that was delivered.
- A transfer that fails part-way leaves a partial local file. Under `CreateFails` the old copy is already deleted. A failure while notifying the user after a complete download makes the attempt return false, and the next attempt downloads again. So a timed-out run can leave a partial file. The model proves that the folder is unchanged only for runs in which no attempt selected a report (`ReportPoll.PollForReport`).
- ReportPoll.StoreAcceptsIff: the download folder is keyed by the exact path string, but Windows paths are case-insensitive. With `DeleteFails`, an old `A.txt` blocks the report `Reports/a.txt` in the code, yet the model sees no old copy and accepts. Case folding in the file system is not modelled.
- ReportPoll.StoreReport: the object name is checked with .NET Framework's path rules: a double quote, `<`, `>`, a vertical bar or a control character anywhere, and `*` or `?` in the file name. Other reasons the file system might refuse a name, such as reserved device names, a trailing dot or an overlong path, are not modelled.
- K8sService.RunCommand: the contract states each branch's result separately. That `[Error] ` output is what callers see as failure is shown by `K8sService.ErrorReportImpliesStrictFailure`.

=== FILE: compare_run.dfy ===
/** Form1's `btnCompare_Click_1`: validate the two paths, lock the button,
    record the start time, upload both snapshots, delete the old job, apply
    the new one, poll for a fresh report, and restore the button on every
    way out. The run is described by the events it produces, in order. */
module CompareRun {
  import opened Wrappers
  import opened Text
  import opened Storage
  import opened Shell
  import opened ReportPoll

  /** The compare button: whether it accepts clicks and its caption. */
  datatype Button = Button(enabled: bool, text: string)

  const IdleLabel: string := "比較"
  const BusyLabel: string := "處理中..."

  /** The caption shown while attempt number `seconds / 3` waits. */
  function ProgressLabel(seconds: nat): string {
    "雲端分析中 (" + NatToString(seconds) + "s)..."
  }

  const JobName: string := "etf-analysis-job"
  const ManifestPath: string := "C:\\Users\\2500771\\Desktop\\ETF\\ETF\\ETF Compare\\k8s\\job.yaml"

  /** The two command lines Form1 runs. The delete is one literal in the
      form; it is written here in the three pieces the service's builder
      uses, so `DeleteCommandIsServiceCommand` holds by construction and only
      checks that the pieces add up to that literal. The apply interpolates
      the manifest path between double quotes. */
  const JobDeleteCommand: string := "kubectl delete job " + "etf-analysis-job" + " --ignore-not-found"
  const JobApplyCommand: string := "kubectl apply -f \"" + ManifestPath + "\""

  /** The reminder shown when a path is blank. */
  const ReminderMessage: string := "請確認檔案路徑是否正確！"

  /** The timeout dialog's text. */
  const TimeoutMessage: string := "分析超時 (60秒)。可能 K8s 發生錯誤，或執行時間過長。\n請稍後手動檢查雲端。"

  function ErrorMessage(cause: string): string {
    "執行過程發生錯誤: " + cause
  }

  /** Form1's commands are the ones `K8sService` builds for the same job
      name and manifest: they name exactly that job and that manifest. */
  lemma DeleteCommandIsServiceCommand()
    ensures JobDeleteCommand == DeleteCommand(JobName)
    ensures DeletedJob(JobDeleteCommand) == Some(JobName)
  {
    DeleteCommandRoundTrip(JobName);
  }

  lemma ApplyCommandIsServiceCommand()
    ensures JobApplyCommand == ApplyCommand(ManifestPath)
    ensures AppliedManifest(JobApplyCommand) == Some(ManifestPath)
  {
    assert JobApplyCommand == ApplyCommand(ManifestPath);
    ApplyCommandRoundTrip(ManifestPath);
  }

  /** Everything a run observable to the user or the cloud does. */
  datatype Event =
    | Reminded(message: string)
    | Locked(caption: string)
    | StartRecorded(time: int)
    | Uploaded(objectName: string)
    | JobDeleteRan(command: string)
    | JobApplyRan(command: string)
    | Polled(attempt: nat, caption: string, minTime: int, accepted: bool)
    | TimeoutShown(message: string)
    | ErrorShown(message: string)
    | Restored(caption: string)

  /** The phase each event belongs to; a run passes through them in order. */
  function Phase(e: Event): nat {
    match e
    case Reminded(_) => 0
    case Locked(_) => 0
    case StartRecorded(_) => 1
    case Uploaded(_) => 2
    case JobDeleteRan(_) => 3
    case JobApplyRan(_) => 4
    case Polled(_, _, _, _) => 5
    case TimeoutShown(_) => 6
    case ErrorShown(_) => 6
    case Restored(_) => 7
  }

  predicate Ordered(t: seq<Event>) {
    forall i, j :: 0 <= i < j < |t| ==> Phase(t[i]) <= Phase(t[j])
  }

  predicate PhasesWithin(t: seq<Event>, lo: nat, hi: nat) {
    forall i :: 0 <= i < |t| ==> lo <= Phase(t[i]) <= hi
  }

  /** No event of a phase in `lo..hi` happened. */
  predicate SkipsPhases(t: seq<Event>, lo: nat, hi: nat) {
    forall i :: 0 <= i < |t| ==> !(lo <= Phase(t[i]) <= hi)
  }

  lemma {:induction false} OrderedConcat(a: seq<Event>, b: seq<Event>, mid: nat)
    requires Ordered(a) && Ordered(b)
    requires forall i :: 0 <= i < |a| ==> Phase(a[i]) <= mid
    requires forall i :: 0 <= i < |b| ==> mid <= Phase(b[i])
    ensures Ordered(a + b)
  {
    var t := a + b;
    forall i, j | 0 <= i < j < |t| ensures Phase(t[i]) <= Phase(t[j]) {
      if j < |a| {
        assert t[i] == a[i] && t[j] == a[j];
      } else if i >= |a| {
        assert t[i] == b[i - |a|] && t[j] == b[j - |a|];
      } else {
        assert t[i] == a[i] && t[j] == b[j - |a|];
      }
    }
  }

  /** What the world does to one run: the clock reading, whether creating
      the storage client and each upload complete or throw (with the
      message), how the two kubectl commands finish, and what each poll
      attempt meets. */
  datatype RunEnv = RunEnv(
    now: int,
    connect: Outcome<string>,
    uploadYesterday: Outcome<string>,
    uploadToday: Outcome<string>,
    deleteRun: ProcessResult,
    applyRun: ProcessResult,
    worlds: seq<AttemptWorld>)

  datatype RunOutcome = InvalidInput | Succeeded | TimedOut | Failed(cause: string)

  /** The steps before polling and the message of the exception that ended
      them early, if one did. */
  datatype Preparation = Preparation(events: seq<Event>, failure: Option<string>)

  /** The part of the run that may throw: the two uploads, stored under
      their file names, then the delete command, then the apply command; the
      first exception ends it, and its message is the failure. */
  function Prepare(yesterdayName: string, todayName: string, env: RunEnv): (r: Preparation)
    ensures r.failure.None? <==>
      && env.connect.Pass? && env.uploadYesterday.Pass? && env.uploadToday.Pass?
      && env.deleteRun.exitCode == 0 && env.applyRun.exitCode == 0
    ensures env.connect.Fail? ==> r.failure == Some(env.connect.error)
    ensures env.connect.Pass? && env.uploadYesterday.Fail? ==> r.failure == Some(env.uploadYesterday.error)
    ensures env.connect.Pass? && env.uploadYesterday.Pass? && env.uploadToday.Fail? ==>
      r.failure == Some(env.uploadToday.error)
    ensures env.connect.Pass? && env.uploadYesterday.Pass? && env.uploadToday.Pass?
            && env.deleteRun.exitCode != 0 ==>
      r.failure == Some(CommandErrorMessage(env.deleteRun))
    ensures env.connect.Pass? && env.uploadYesterday.Pass? && env.uploadToday.Pass?
            && env.deleteRun.exitCode == 0 && env.applyRun.exitCode != 0 ==>
      r.failure == Some(CommandErrorMessage(env.applyRun))
  {
    if env.connect.Fail? then Preparation([], Some(env.connect.error))
    else if env.uploadYesterday.Fail? then Preparation([], Some(env.uploadYesterday.error))
    else if env.uploadToday.Fail? then
      Preparation([Uploaded(yesterdayName)], Some(env.uploadToday.error))
    else if env.deleteRun.exitCode != 0 then
      Preparation([Uploaded(yesterdayName), Uploaded(todayName), JobDeleteRan(JobDeleteCommand)],
                  RunCommandStrict(env.deleteRun).FailureMessage())
    else
      Preparation([Uploaded(yesterdayName), Uploaded(todayName),
                   JobDeleteRan(JobDeleteCommand), JobApplyRan(JobApplyCommand)],
                  RunCommandStrict(env.applyRun).FailureMessage())
  }

  /** The steps before polling happen in phase order: uploads, delete,
      apply. */
  lemma PrepareIsOrdered(yesterdayName: string, todayName: string, env: RunEnv)
    ensures var r := Prepare(yesterdayName, todayName, env);
      Ordered(r.events) && PhasesWithin(r.events, 2, 4)
  {
  }

  /** The first exception stops the run where it is raised: a failed
      connection or first upload uploads nothing and runs no command, a
      failed second upload runs no command, a failed delete applies
      nothing. */
  lemma PrepareStopsAtFirstFailure(yesterdayName: string, todayName: string, env: RunEnv)
    ensures var r := Prepare(yesterdayName, todayName, env);
      && (env.connect.Fail? || env.uploadYesterday.Fail? ==> r.events == [])
      && (env.uploadToday.Fail? ==> SkipsPhases(r.events, 3, 4))
      && (env.deleteRun.exitCode != 0 ==> SkipsPhases(r.events, 4, 4))
  {
  }

  /** Delete runs only after both uploads, apply only after delete, and
      these are the only commands; when nothing failed, apply has run. */
  lemma PrepareCommandOrder(yesterdayName: string, todayName: string, env: RunEnv)
    ensures var r := Prepare(yesterdayName, todayName, env);
      && (JobDeleteRan(JobDeleteCommand) in r.events ==>
            Uploaded(yesterdayName) in r.events && Uploaded(todayName) in r.events)
      && (JobApplyRan(JobApplyCommand) in r.events ==> JobDeleteRan(JobDeleteCommand) in r.events)
      && (forall i :: 0 <= i < |r.events| && r.events[i].JobDeleteRan? ==> r.events[i].command == JobDeleteCommand)
      && (forall i :: 0 <= i < |r.events| && r.events[i].JobApplyRan? ==> r.events[i].command == JobApplyCommand)
      && (r.failure.None? ==> JobApplyRan(JobApplyCommand) in r.events)
  {
  }

  /** The poll events for the attempts made, with the caption each showed. */
  function PollEvents(attempts: seq<bool>, seconds: seq<nat>, minTime: int): (r: seq<Event>)
    requires |seconds| == |attempts|
    ensures |r| == |attempts|
    ensures PhasesWithin(r, 5, 5)
    ensures forall k :: 0 <= k < |r| ==> r[k] == Polled(k, ProgressLabel(seconds[k]), minTime, attempts[k])
  {
    seq(|attempts|, k requires 0 <= k < |attempts| => Polled(k, ProgressLabel(seconds[k]), minTime, attempts[k]))
  }

  /** The events of a run that passed validation: lock the button and record
      the start, prepare, poll, show the closing message if any, restore. */
  function Assemble(now: int, prep: seq<Event>, polls: seq<Event>, closing: seq<Event>): seq<Event> {
    [Locked(BusyLabel), StartRecorded(now)] + prep + polls + closing + [Restored(IdleLabel)]
  }

  /** The button frames the run: it is locked and the start time recorded
      first, and it is restored last, each exactly once. */
  predicate Framed(t: seq<Event>, now: int) {
    && |t| >= 3
    && t[0] == Locked(BusyLabel)
    && t[1] == StartRecorded(now)
    && t[|t| - 1] == Restored(IdleLabel)
    && (forall i :: 0 < i < |t| ==> !t[i].Locked? && !t[i].Reminded? && (t[i].StartRecorded? ==> i == 1))
    && (forall i :: 0 <= i < |t| - 1 ==> !t[i].Restored?)
  }

  /** Events of the phases `lo..hi` occur in `t` exactly when they occur in
      `part`: nothing of those phases is added, dropped or replaced. */
  ghost predicate SamePhaseEvents(t: seq<Event>, part: seq<Event>, lo: nat, hi: nat) {
    forall e :: lo <= Phase(e) <= hi ==> (e in t <==> e in part)
  }

  /** `polls` holds one poll event per attempt, in the order the attempts
      were made, each judged against `now` with the caption for its elapsed
      seconds. */
  ghost predicate LogsAttempts(polls: seq<Event>, now: int, attempts: seq<bool>) {
    && |polls| == |attempts|
    && forall k :: 0 <= k < |attempts| ==>
         polls[k] == Polled(k, ProgressLabel(k * PollIntervalSeconds), now, attempts[k])
  }

  /** The dialog a run past validation closes with: the error message of the
      exception that ended it, the timeout message, or none on success. */
  function Closing(outcome: RunOutcome): (r: seq<Event>)
    ensures |r| <= 1 && PhasesWithin(r, 6, 6)
  {
    match outcome
    case Failed(cause) => [ErrorShown(ErrorMessage(cause))]
    case TimedOut => [TimeoutShown(TimeoutMessage)]
    case _ => []
  }

  /** Between the lock and start events and the final restore, `t` holds
      exactly `prep`, in order, then one poll event per attempt, in order,
      then `closing`: no step is repeated, dropped or moved. */
  ghost predicate Lays(t: seq<Event>, now: int, prep: seq<Event>, attempts: seq<bool>, closing: seq<Event>) {
    && |t| == 3 + |prep| + |attempts| + |closing|
    && t[2..2 + |prep|] == prep
    && LogsAttempts(t[2 + |prep|..2 + |prep| + |attempts|], now, attempts)
    && t[2 + |prep| + |attempts|..|t| - 1] == closing
  }

  /** Every poll attempt in `t` was judged against `now`, showed the caption
      for its elapsed seconds, and had the outcome `attempts` records. */
  predicate PollsAgainst(t: seq<Event>, now: int, attempts: seq<bool>) {
    forall i :: 0 <= i < |t| && t[i].Polled? ==>
      && t[i].minTime == now
      && t[i].caption == ProgressLabel(t[i].attempt * PollIntervalSeconds)
      && t[i].attempt < |attempts|
      && t[i].accepted == attempts[t[i].attempt]
  }

  /** Every attempt made appears in `t`. */
  predicate AttemptsLogged(t: seq<Event>, now: int, attempts: seq<bool>) {
    forall k :: 0 <= k < |attempts| ==>
      Polled(k, ProgressLabel(k * PollIntervalSeconds), now, attempts[k]) in t
  }

  /** The frame and phase order of an assembled run, given those of its
      parts. */
  lemma {:induction false} AssembleOrdered(now: int, prep: seq<Event>, polls: seq<Event>, closing: seq<Event>)
    requires Ordered(prep) && PhasesWithin(prep, 2, 4)
    requires PhasesWithin(polls, 5, 5)
    requires PhasesWithin(closing, 6, 6) && |closing| <= 1
    ensures Framed(Assemble(now, prep, polls, closing), now)
    ensures Ordered(Assemble(now, prep, polls, closing))
  {
    var head := [Locked(BusyLabel), StartRecorded(now)];
    OrderedConcat(head, prep, 1);
    OrderedConcat(head + prep, polls, 4);
    OrderedConcat(head + prep + polls, closing, 5);
    OrderedConcat(head + prep + polls + closing, [Restored(IdleLabel)], 6);
    assert Assemble(now, prep, polls, closing) == head + prep + polls + closing + [Restored(IdleLabel)];
  }

  /** Where the events of each part sit in an assembled run. */
  lemma {:induction false} AssembleMembers(now: int, prep: seq<Event>, polls: seq<Event>, closing: seq<Event>)
    requires PhasesWithin(prep, 2, 4) && PhasesWithin(polls, 5, 5) && PhasesWithin(closing, 6, 6)
    ensures var t := Assemble(now, prep, polls, closing);
      && (forall i :: 0 <= i < |prep| ==> t[2 + i] == prep[i])
      && (forall k :: 0 <= k < |polls| ==> t[2 + |prep| + k] == polls[k])
      && (forall j :: 0 <= j < |closing| ==> t[2 + |prep| + |polls| + j] == closing[j])
      && |t| == |prep| + |polls| + |closing| + 3
  {
  }

  /** What the poll events say carries over to the assembled run, and the
      run has poll events only if `polls` is not empty. */
  lemma {:induction false} AssemblePolls(now: int, prep: seq<Event>, polls: seq<Event>, closing: seq<Event>,
                                         attempts: seq<bool>)
    requires PhasesWithin(prep, 2, 4) && PhasesWithin(polls, 5, 5) && PhasesWithin(closing, 6, 6)
    requires PollsAgainst(polls, now, attempts)
    requires AttemptsLogged(polls, now, attempts)
    ensures var t := Assemble(now, prep, polls, closing);
      && PollsAgainst(t, now, attempts)
      && AttemptsLogged(t, now, attempts)
      && (forall i :: 0 <= i < |t| && t[i].Polled? ==> |polls| > 0)
  {
    var t := Assemble(now, prep, polls, closing);
    AssembleMembers(now, prep, polls, closing);
    forall i | 0 <= i < |t| && t[i].Polled?
      ensures 2 + |prep| <= i < 2 + |prep| + |polls| && t[i] == polls[i - 2 - |prep|]
    {
    }
    forall k | 0 <= k < |attempts|
      ensures Polled(k, ProgressLabel(k * PollIntervalSeconds), now, attempts[k]) in t
    {
      var e := Polled(k, ProgressLabel(k * PollIntervalSeconds), now, attempts[k]);
      var j :| 0 <= j < |polls| && polls[j] == e;
      assert t[2 + |prep| + j] == e;
    }
  }

  /** The events an assembled run has, phase by phase, are those of its parts. */
  lemma {:induction false} AssembleContents(now: int, prep: seq<Event>, polls: seq<Event>, closing: seq<Event>, e: Event)
    requires PhasesWithin(prep, 2, 4) && PhasesWithin(polls, 5, 5) && PhasesWithin(closing, 6, 6)
    ensures 2 <= Phase(e) <= 4 ==> (e in Assemble(now, prep, polls, closing) <==> e in prep)
    ensures Phase(e) == 5 ==> (e in Assemble(now, prep, polls, closing) <==> e in polls)
    ensures Phase(e) == 6 ==> (e in Assemble(now, prep, polls, closing) <==> e in closing)
  {
    var head := [Locked(BusyLabel), StartRecorded(now)];
    var t := Assemble(now, prep, polls, closing);
    assert t == head + prep + polls + closing + [Restored(IdleLabel)];
    if e in t && 2 <= Phase(e) <= 6 {
      assert e !in head && e != Restored(IdleLabel);
    }
    if e in prep && 2 <= Phase(e) <= 4 {
      var i :| 0 <= i < |prep| && prep[i] == e;
      assert t[2 + i] == e;
    }
  }

  /** An assembled run keeps the guarantees of its parts: the frame, the
      phase order, the command order, and the record of every attempt; its
      closing messages are exactly those of `closing`. */
  lemma AssembleRun(now: int, prep: seq<Event>, polls: seq<Event>, closing: seq<Event>,
                    attempts: seq<bool>, yesterdayName: string, todayName: string)
    requires Ordered(prep) && PhasesWithin(prep, 2, 4)
    requires PhasesWithin(polls, 5, 5)
    requires PhasesWithin(closing, 6, 6) && |closing| <= 1
    requires PollsAgainst(polls, now, attempts) && AttemptsLogged(polls, now, attempts)
    requires JobDeleteRan(JobDeleteCommand) in prep ==> Uploaded(yesterdayName) in prep && Uploaded(todayName) in prep
    requires JobApplyRan(JobApplyCommand) in prep ==> JobDeleteRan(JobDeleteCommand) in prep
    requires |polls| > 0 ==> JobApplyRan(JobApplyCommand) in prep
    ensures var t := Assemble(now, prep, polls, closing);
      && Framed(t, now)
      && Ordered(t)
      && (JobApplyRan(JobApplyCommand) in t ==> JobDeleteRan(JobDeleteCommand) in t)
      && (JobDeleteRan(JobDeleteCommand) in t ==> Uploaded(yesterdayName) in t && Uploaded(todayName) in t)
      && (forall i :: 0 <= i < |t| && t[i].Polled? ==> JobApplyRan(JobApplyCommand) in t)
      && PollsAgainst(t, now, attempts)
      && AttemptsLogged(t, now, attempts)
      && (TimeoutShown(TimeoutMessage) in t <==> TimeoutShown(TimeoutMessage) in closing)
      && (forall m :: ErrorShown(m) in closing ==> ErrorShown(m) in t)
  {
    AssembleOrdered(now, prep, polls, closing);
    AssemblePolls(now, prep, polls, closing, attempts);
    AssembleContents(now, prep, polls, closing, JobApplyRan(JobApplyCommand));
    AssembleContents(now, prep, polls, closing, JobDeleteRan(JobDeleteCommand));
    AssembleContents(now, prep, polls, closing, Uploaded(yesterdayName));
    AssembleContents(now, prep, polls, closing, Uploaded(todayName));
    AssembleContents(now, prep, polls, closing, TimeoutShown(TimeoutMessage));
    forall m | ErrorShown(m) in closing
      ensures ErrorShown(m) in Assemble(now, prep, polls, closing)
    {
      AssembleContents(now, prep, polls, closing, ErrorShown(m));
    }
  }

  /** A run shows an error dialog only for the failure that ended it: the
      closing part of a failed run is its one error message, and that of any
      other run holds at most the timeout dialog. */
  lemma {:induction false} ErrorsOfClosing(t: seq<Event>, closing: seq<Event>, outcome: RunOutcome)
    requires SamePhaseEvents(t, closing, 6, 6)
    requires outcome.Failed? ==> closing == [ErrorShown(ErrorMessage(outcome.cause))]
    requires !outcome.Failed? ==> closing == [] || closing == [TimeoutShown(TimeoutMessage)]
    ensures forall m :: ErrorShown(m) in t <==> outcome.Failed? && m == ErrorMessage(outcome.cause)
  {
    forall m ensures ErrorShown(m) in t <==> outcome.Failed? && m == ErrorMessage(outcome.cause) {
      assert Phase(ErrorShown(m)) == 6;
    }
  }

  /** The trace of a run past validation, built from its parts, with what
      the rest of the run relies on. */
  method BuildTrace(now: int, prep: seq<Event>, polls: seq<Event>, closing: seq<Event>,
                    attempts: seq<bool>, yesterdayName: string, todayName: string)
    returns (t: seq<Event>)
    requires Ordered(prep) && PhasesWithin(prep, 2, 4)
    requires PhasesWithin(polls, 5, 5)
    requires PhasesWithin(closing, 6, 6) && |closing| <= 1
    requires PollsAgainst(polls, now, attempts) && AttemptsLogged(polls, now, attempts)
    requires JobDeleteRan(JobDeleteCommand) in prep ==> Uploaded(yesterdayName) in prep && Uploaded(todayName) in prep
    requires JobApplyRan(JobApplyCommand) in prep ==> JobDeleteRan(JobDeleteCommand) in prep
    requires |polls| > 0 ==> JobApplyRan(JobApplyCommand) in prep
    requires LogsAttempts(polls, now, attempts)
    ensures Framed(t, now)
    ensures Ordered(t)
    ensures JobApplyRan(JobApplyCommand) in t ==> JobDeleteRan(JobDeleteCommand) in t
    ensures JobDeleteRan(JobDeleteCommand) in t ==> Uploaded(yesterdayName) in t && Uploaded(todayName) in t
    ensures forall i :: 0 <= i < |t| && t[i].Polled? ==> JobApplyRan(JobApplyCommand) in t
    ensures PollsAgainst(t, now, attempts)
    ensures AttemptsLogged(t, now, attempts)
    ensures TimeoutShown(TimeoutMessage) in t <==> TimeoutShown(TimeoutMessage) in closing
    ensures forall m :: ErrorShown(m) in closing ==> ErrorShown(m) in t
    ensures SamePhaseEvents(t, prep, 2, 4)
    ensures SamePhaseEvents(t, closing, 6, 6)
    ensures Lays(t, now, prep, attempts, closing)
  {
    t := Assemble(now, prep, polls, closing);
    assert t == [Locked(BusyLabel), StartRecorded(now)] + prep + polls + closing + [Restored(IdleLabel)];
    assert t[2..2 + |prep|] == prep;
    assert t[2 + |prep|..2 + |prep| + |attempts|] == polls;
    assert t[2 + |prep| + |attempts|..|t| - 1] == closing;
    AssembleRun(now, prep, polls, closing, attempts, yesterdayName, todayName);
    forall e ensures 2 <= Phase(e) <= 4 ==> (e in t <==> e in prep)
                 ensures Phase(e) == 6 ==> (e in t <==> e in closing)
    {
      AssembleContents(now, prep, polls, closing, e);
    }
  }

  /** The preparation of a run, as the rest of the run relies on it. */
  method PreparePhase(yesterdayName: string, todayName: string, env: RunEnv) returns (prep: Preparation)
    ensures prep == Prepare(yesterdayName, todayName, env)
    ensures Ordered(prep.events) && PhasesWithin(prep.events, 2, 4)
    ensures JobDeleteRan(JobDeleteCommand) in prep.events ==>
      Uploaded(yesterdayName) in prep.events && Uploaded(todayName) in prep.events
    ensures JobApplyRan(JobApplyCommand) in prep.events ==> JobDeleteRan(JobDeleteCommand) in prep.events
    ensures prep.failure.None? ==> JobApplyRan(JobApplyCommand) in prep.events
  {
    prep := Prepare(yesterdayName, todayName, env);
    PrepareIsOrdered(yesterdayName, todayName, env);
    PrepareCommandOrder(yesterdayName, todayName, env);
  }

  /** The attempts of a run whose preparation succeeded, with their events,
      the closing message and the download folder after them. */
  method PollAttempts(env: RunEnv, folder: Folder)
    returns (outcome: RunOutcome, attempts: seq<bool>, folders: seq<Folder>,
             polls: seq<Event>, closing: seq<Event>, folder': Folder)
    requires |env.worlds| == MaxRetries
    ensures outcome == Succeeded || outcome == TimedOut
    ensures Replays(env.worlds, env.now, folder, attempts, folders) && folder' == folders[|attempts|]
    ensures 1 <= |attempts| <= MaxRetries
    ensures forall k :: 0 <= k < |attempts| - 1 ==> !attempts[k]
    ensures outcome == Succeeded <==> attempts[|attempts| - 1]
    ensures outcome == TimedOut <==> |attempts| == MaxRetries && !attempts[MaxRetries - 1]
    ensures PhasesWithin(polls, 5, 5)
    ensures PollsAgainst(polls, env.now, attempts)
    ensures AttemptsLogged(polls, env.now, attempts)
    ensures LogsAttempts(polls, env.now, attempts)
    ensures outcome == Succeeded ==> closing == []
    ensures outcome == TimedOut ==> closing == [TimeoutShown(TimeoutMessage)]
    ensures outcome == Succeeded ==> Delivered(env.worlds[|attempts| - 1], env.now, folder')
  {
    var isSuccess, seconds;
    isSuccess, attempts, seconds, folders := PollForReport(env.worlds, env.now, folder);
    polls := PollEvents(attempts, seconds, env.now);
    folder' := folders[|attempts|];
    forall k | 0 <= k < |attempts|
      ensures Polled(k, ProgressLabel(k * PollIntervalSeconds), env.now, attempts[k]) in polls
    {
      assert polls[k] == Polled(k, ProgressLabel(k * PollIntervalSeconds), env.now, attempts[k]);
    }
    if isSuccess {
      outcome := Succeeded;
      closing := [];
    } else {
      outcome := TimedOut;
      closing := [TimeoutShown(TimeoutMessage)];
    }
  }

  /** What follows the preparation of a run, given the failure that ended
      it, if any: a failed preparation shows its message and polls nothing;
      otherwise the attempts are made, with their events, the closing
      message and the download folder after them. */
  method PollPhase(env: RunEnv, folder: Folder, failure: Option<string>)
    returns (outcome: RunOutcome, attempts: seq<bool>, folders: seq<Folder>,
             polls: seq<Event>, closing: seq<Event>, folder': Folder)
    requires |env.worlds| == MaxRetries
    ensures outcome != InvalidInput
    ensures outcome.Failed? <==> failure.Some?
    ensures outcome.Failed? ==>
      && failure == Some(outcome.cause)
      && attempts == [] && polls == [] && folder' == folder
      && closing == [ErrorShown(ErrorMessage(outcome.cause))]
    ensures Replays(env.worlds, env.now, folder, attempts, folders) && folder' == folders[|attempts|]
    ensures failure.None? ==> 1 <= |attempts| <= MaxRetries
    ensures forall k :: 0 <= k < |attempts| - 1 ==> !attempts[k]
    ensures outcome == Succeeded <==> |attempts| > 0 && attempts[|attempts| - 1]
    ensures outcome == TimedOut <==> |attempts| == MaxRetries && !attempts[MaxRetries - 1]
    ensures PhasesWithin(polls, 5, 5)
    ensures PollsAgainst(polls, env.now, attempts)
    ensures AttemptsLogged(polls, env.now, attempts)
    ensures PhasesWithin(closing, 6, 6) && |closing| <= 1
    ensures outcome == TimedOut <==> TimeoutShown(TimeoutMessage) in closing
    ensures LogsAttempts(polls, env.now, attempts)
    ensures closing == Closing(outcome)
    ensures outcome == Succeeded ==> Delivered(env.worlds[|attempts| - 1], env.now, folder')
  {
    if failure.Some? {
      outcome := Failed(failure.value);
      attempts, folders, polls, folder' := [], [folder], [], folder;
      closing := [ErrorShown(ErrorMessage(failure.value))];
      ReplaysNothing(env.worlds, env.now, folder);
    } else {
      outcome, attempts, folders, polls, closing, folder' := PollAttempts(env, folder);
    }
  }

  /** A run past validation, with the file names its uploads use. */
  method RunRemote(yesterdayName: string, todayName: string, env: RunEnv, folder: Folder)
    returns (outcome: RunOutcome, trace: seq<Event>, attempts: seq<bool>, folders: seq<Folder>, folder': Folder)
    requires |env.worlds| == MaxRetries
    ensures outcome != InvalidInput
    ensures Replays(env.worlds, env.now, folder, attempts, folders) && folder' == folders[|attempts|]
    ensures Framed(trace, env.now)
    ensures Ordered(trace)
    ensures JobApplyRan(JobApplyCommand) in trace ==> JobDeleteRan(JobDeleteCommand) in trace
    ensures JobDeleteRan(JobDeleteCommand) in trace ==>
      Uploaded(yesterdayName) in trace && Uploaded(todayName) in trace
    ensures forall i :: 0 <= i < |trace| && trace[i].Polled? ==> JobApplyRan(JobApplyCommand) in trace
    ensures PollsAgainst(trace, env.now, attempts)
    ensures AttemptsLogged(trace, env.now, attempts)
    ensures |attempts| <= MaxRetries
    ensures forall k :: 0 <= k < |attempts| - 1 ==> !attempts[k]
    ensures outcome == Succeeded <==> |attempts| > 0 && attempts[|attempts| - 1]
    ensures outcome == TimedOut <==> |attempts| == MaxRetries && !attempts[MaxRetries - 1]
    ensures outcome == TimedOut <==> TimeoutShown(TimeoutMessage) in trace
    ensures outcome.Failed? ==>
      && Prepare(yesterdayName, todayName, env).failure == Some(outcome.cause)
      && ErrorShown(ErrorMessage(outcome.cause)) in trace
      && folder' == folder
    ensures outcome.Failed? <==> |attempts| == 0
    // Preparation fails exactly when `Prepare` says so, and each step it
    // performed is shown once, in order, followed by one poll event per
    // attempt and the closing dialog.
    ensures var prep := Prepare(yesterdayName, todayName, env);
      && (outcome.Failed? <==> prep.failure.Some?)
      && SamePhaseEvents(trace, prep.events, 2, 4)
      && Lays(trace, env.now, prep.events, attempts, Closing(outcome))
    // The only error dialog is the one for the failure that ended the run.
    ensures forall m :: ErrorShown(m) in trace <==> outcome.Failed? && m == ErrorMessage(outcome.cause)
    ensures outcome == Succeeded ==> Delivered(env.worlds[|attempts| - 1], env.now, folder')
  {
    var prep := PreparePhase(yesterdayName, todayName, env);
    var polls, closing;
    outcome, attempts, folders, polls, closing, folder' := PollPhase(env, folder, prep.failure);
    trace := BuildTrace(env.now, prep.events, polls, closing, attempts, yesterdayName, todayName);
    ErrorsOfClosing(trace, closing, outcome);
  }

  /** A run whose storage client could not be created shows no upload and
      no command, whatever else the world would have done. */
  lemma ConnectFailureShowsNoPreparation(t: seq<Event>, yesterdayName: string, todayName: string, env: RunEnv)
    requires env.connect.Fail?
    requires SamePhaseEvents(t, Prepare(yesterdayName, todayName, env).events, 2, 4)
    ensures forall i :: 0 <= i < |t| ==> !(2 <= Phase(t[i]) <= 4)
  {
    forall i | 0 <= i < |t| ensures !(2 <= Phase(t[i]) <= 4) {
      assert t[i] in t;
    }
  }

  /** A run whose preparation completed shows yesterday's upload, today's
      upload, the delete and the apply right after the start, in that
      order, and the apply nowhere else. */
  lemma CleanRunShowsEachStepOnce(t: seq<Event>, yesterdayName: string, todayName: string, env: RunEnv,
                                  attempts: seq<bool>, outcome: RunOutcome)
    requires Prepare(yesterdayName, todayName, env).failure.None?
    requires Framed(t, env.now)
    requires Lays(t, env.now, Prepare(yesterdayName, todayName, env).events, attempts, Closing(outcome))
    ensures t[2..6] == [Uploaded(yesterdayName), Uploaded(todayName),
                        JobDeleteRan(JobDeleteCommand), JobApplyRan(JobApplyCommand)]
    ensures forall i :: 0 <= i < |t| && t[i] == JobApplyRan(JobApplyCommand) ==> i == 5
  {
    var polls := t[6..6 + |attempts|];
    var closing := Closing(outcome);
    forall i | 0 <= i < |t| && i != 5 ensures t[i] != JobApplyRan(JobApplyCommand) {
      if 6 <= i < 6 + |attempts| {
        assert t[i] == polls[i - 6];
      } else if 6 + |attempts| <= i < |t| - 1 {
        assert t[i] == closing[i - 6 - |attempts|];
        assert Phase(closing[i - 6 - |attempts|]) == 6;
      } else if 2 <= i < 5 {
        assert t[i] == t[2..6][i - 2];
      }
    }
  }

  /** One click. `attempts` lists, for each poll attempt made, whether it
      accepted a report. */
  method CompareClick(button: Button, yesterday: Option<string>, today: Option<string>,
                      env: RunEnv, folder: Folder)
    returns (outcome: RunOutcome, trace: seq<Event>, attempts: seq<bool>, folders: seq<Folder>,
             button': Button, folder': Folder)
    requires |env.worlds| == MaxRetries
    // Blank input: nothing happens besides the reminder.
    ensures outcome == InvalidInput <==> IsNullOrWhiteSpace(yesterday) || IsNullOrWhiteSpace(today)
    ensures outcome == InvalidInput ==>
      trace == [Reminded(ReminderMessage)] && attempts == [] && button' == button && folder' == folder
    ensures outcome != InvalidInput ==> Reminded(ReminderMessage) !in trace
    // Each attempt is made on what the bucket held at that attempt, on the
    // folder the attempt before it left.
    ensures Replays(env.worlds, env.now, folder, attempts, folders) && folder' == folders[|attempts|]
    // Otherwise the button is locked first and restored last, exactly once,
    // and the phases never interleave or go back.
    ensures outcome != InvalidInput ==>
      Framed(trace, env.now) && button' == Button(true, IdleLabel)
    ensures Ordered(trace)
    ensures JobApplyRan(JobApplyCommand) in trace ==> JobDeleteRan(JobDeleteCommand) in trace
    ensures JobDeleteRan(JobDeleteCommand) in trace ==>
      Uploaded(FileName(yesterday.value)) in trace && Uploaded(FileName(today.value)) in trace
    // Polling happens only after apply, each attempt against the one start time.
    ensures forall i :: 0 <= i < |trace| && trace[i].Polled? ==> JobApplyRan(JobApplyCommand) in trace
    ensures PollsAgainst(trace, env.now, attempts)
    ensures AttemptsLogged(trace, env.now, attempts)
    // Bounded polling, first success wins.
    ensures |attempts| <= MaxRetries
    ensures forall k :: 0 <= k < |attempts| - 1 ==> !attempts[k]
    ensures outcome == Succeeded <==> |attempts| > 0 && attempts[|attempts| - 1]
    ensures outcome == TimedOut <==> |attempts| == MaxRetries && !attempts[MaxRetries - 1]
    ensures outcome == TimedOut <==> TimeoutShown(TimeoutMessage) in trace
    ensures outcome.Failed? ==>
      && Prepare(FileName(yesterday.value), FileName(today.value), env).failure == Some(outcome.cause)
      && ErrorShown(ErrorMessage(outcome.cause)) in trace
      && folder' == folder
    ensures outcome.Failed? || outcome == InvalidInput <==> |attempts| == 0
    // Past validation, preparation fails exactly when `Prepare` says so, and
    // the uploads and commands shown are exactly those `Prepare` performed.
    // Each step is shown once, in the order performed.
    ensures outcome != InvalidInput ==>
      var prep := Prepare(FileName(yesterday.value), FileName(today.value), env);
      && (outcome.Failed? <==> prep.failure.Some?)
      && SamePhaseEvents(trace, prep.events, 2, 4)
      && Lays(trace, env.now, prep.events, attempts, Closing(outcome))
    // The only error dialog is the one for the failure that ended the run.
    ensures forall m :: ErrorShown(m) in trace <==> outcome.Failed? && m == ErrorMessage(outcome.cause)
    // A success leaves a fresh report's full content in the download folder.
    ensures outcome == Succeeded ==> Delivered(env.worlds[|attempts| - 1], env.now, folder')
  {
    if IsNullOrWhiteSpace(yesterday) || IsNullOrWhiteSpace(today) {
      ReplaysNothing(env.worlds, env.now, folder);
      return InvalidInput, [Reminded(ReminderMessage)], [], [folder], button, folder;
    }
    button' := Button(true, IdleLabel);
    var yesterdayName, todayName := FileName(yesterday.value), FileName(today.value);
    outcome, trace, attempts, folders, folder' := RunRemote(yesterdayName, todayName, env, folder);
  }
}

=== FILE: k8s_service.dfy ===
/** `K8sService`: job control through `kubectl`, returning the command's
    output as text instead of throwing on a failed exit. */
module K8sService {
  import opened Wrappers
  import opened Text
  import opened Shell

  /** A service bound at construction to one job name. */
  datatype Service = Service(jobName: string)

  /** A command that ran and the text the service returned for it. */
  datatype Invocation = Invocation(command: string, output: string)

  const ErrorTag: string := "[Error] "

  /** The service's `RunCommand`: a failed exit with something on stderr
      becomes `[Error] <stderr>`; in every other case stdout comes back. It
      never throws on the exit status. */
  function RunCommand(p: ProcessResult): (r: string)
    ensures p.exitCode == 0 ==> r == p.stdout
    ensures p.exitCode != 0 && !IsNullOrWhiteSpace(p.stderr) ==> r == ErrorTag + p.stderr.value
    ensures p.exitCode != 0 && IsNullOrWhiteSpace(p.stderr) ==> r == p.stdout
  {
    if p.exitCode != 0 && !IsNullOrWhiteSpace(p.stderr) then ErrorTag + p.stderr.value
    else p.stdout
  }

  /** Whenever the service reports something other than stdout, the stricter
      runner in Form1 throws for the same process result, and the report is
      the tagged stderr. */
  lemma ErrorReportImpliesStrictFailure(p: ProcessResult)
    requires RunCommand(p) != p.stdout
    ensures RunCommandStrict(p).Fail?
    ensures p.stderr.Some? && RunCommand(p) == ErrorTag + p.stderr.value
  {
  }

  /** Where Form1's runner completes, the service returns stdout. */
  lemma StrictSuccessImpliesStdout(p: ProcessResult)
    requires RunCommandStrict(p).Pass?
    ensures RunCommand(p) == p.stdout
  {
  }

  /** A failed exit with blank stderr: Form1's runner throws while the service
      hands back stdout as if the command had succeeded. */
  lemma SilentFailureIsNotReported()
    ensures var p := ProcessResult(1, "partial output", Some(" \r\n"));
      && RunCommandStrict(p).Fail?
      && RunCommand(p) == "partial output"
  {
    var p := ProcessResult(1, "partial output", Some(" \r\n"));
    assert IsNullOrWhiteSpace(p.stderr) by {
      assert forall i :: 0 <= i < |p.stderr.value| ==> IsWhiteSpace(p.stderr.value[i]);
    }
  }

  /** `DeleteJob`: deletes the job named at construction, tolerating its
      absence; `p` is how that command finished. */
  function DeleteJob(svc: Service, p: ProcessResult): (r: Invocation)
    ensures DeletedJob(r.command) == Some(svc.jobName)
    ensures r.output == RunCommand(p)
  {
    DeleteCommandRoundTrip(svc.jobName);
    Invocation(DeleteCommand(svc.jobName), RunCommand(p))
  }

  /** `ApplyJob`: refuses a manifest path that does not exist with a
      `FileNotFoundException` and runs nothing; otherwise applies the
      manifest. `manifestExists` is what `File.Exists` answers for the path. */
  function ApplyJob(svc: Service, yamlPath: string, manifestExists: bool, p: ProcessResult)
    : (r: Result<Invocation, string>)
    ensures r.Failure? <==> !manifestExists
    ensures r.Failure? ==> r.error == "找不到 YAML 檔案：" + yamlPath
    ensures r.Success? ==> AppliedManifest(r.value.command) == Some(yamlPath)
    ensures r.Success? ==> r.value.output == RunCommand(p)
  {
    if !manifestExists then Failure("找不到 YAML 檔案：" + yamlPath)
    else
      ApplyCommandRoundTrip(yamlPath);
      Success(Invocation(ApplyCommand(yamlPath), RunCommand(p)))
  }
}

=== FILE: report_poll.dfy ===
/** Form1's `TryDownloadReport` and the bounded poll loop of
    `btnCompare_Click_1`. The local download folder is a map from full path
    to file content; the wait between attempts is one loop step. */
module ReportPoll {
  import opened Wrappers
  import opened Text
  import opened Storage

  type Folder = map<string, string>

  const DownloadFolderPath: string := "C:\\Users\\2500771\\Desktop\\ETF\\k8s output"
  const MaxRetries: nat := 20
  const PollIntervalSeconds: nat := 3

  /** Where in the local file steps of an accepted attempt an exception is
      raised, if anywhere: deleting the old copy, creating the file, during
      the transfer after `written` characters, or after the file is complete
      (the completion dialog or launching the file browser). */
  datatype Fault =
    | NoFault
    | DeleteFails
    | CreateFails
    | TransferFails(written: nat)
    | NotifyFails

  /** What one attempt meets: the bucket as listed, or the message of an
      exception raised before the listing was read (creating the folder or
      the client, or listing), and the fault, if any, of the download. */
  datatype AttemptWorld = AttemptWorld(bucket: Result<seq<StoredObject>, string>, fault: Fault)

  /** What one attempt returns and the download folder afterwards. */
  datatype AttemptResult = AttemptResult(accepted: bool, folder: Folder)

  /** Characters .NET Framework's path functions refuse anywhere in a path.
      `Path.GetFileName` checks the whole object name for them before it
      splits anything off, so one anywhere in the name throws before any
      file is touched. */
  predicate IsInvalidPathChar(c: char) {
    c < ' ' || c == '"' || c == '<' || c == '>' || c == '|'
  }

  predicate IsValidPath(s: string) {
    forall i :: 0 <= i < |s| ==> !IsInvalidPathChar(s[i])
  }

  /** Wildcards pass the path checks, but creating the file refuses them.
      `File.Exists` answers false for such a path, so nothing is deleted
      before the create throws. */
  predicate IsWildcard(c: char) {
    c == '*' || c == '?'
  }

  predicate HasNoWildcard(name: string) {
    forall i :: 0 <= i < |name| ==> !IsWildcard(name[i])
  }

  /** Whether the client can store an object of this name at all. */
  predicate IsStorable(objectName: string) {
    IsValidPath(objectName) && HasNoWildcard(FileName(objectName))
  }

  /** `Path.Combine(DownloadFolderPath, Path.GetFileName(objectName))` */
  function LocalPath(objectName: string): string {
    PathCombine(DownloadFolderPath, FileName(objectName))
  }

  /** The report the attempt selects, if the listing succeeded. */
  function Selected(w: AttemptWorld, minTime: int): Option<StoredObject> {
    if w.bucket.Failure? then None else FreshReport(w.bucket.value, minTime)
  }

  /** Whether `b` equals `a` at every path other than `path`. */
  predicate AgreeExcept(a: Folder, b: Folder, path: string) {
    && (forall p :: p in a && p != path ==> p in b && b[p] == a[p])
    && (forall p :: p in b && p != path ==> p in a)
  }

  /** The local file steps of an attempt that selected `o`: delete any old
      copy, create the file, copy the content, then notify. An exception
      at any step makes the attempt a miss, leaving whatever the steps
      before it did. A name the client cannot store throws before any
      file is touched. An old copy that cannot be deleted blocks the
      download only when it exists. */
  function StoreReport(o: StoredObject, fault: Fault, folder: Folder): AttemptResult {
    var path := LocalPath(o.name);
    if !IsStorable(o.name) then AttemptResult(false, folder)
    else
      match fault
      case NoFault => AttemptResult(true, folder[path := o.data])
      case DeleteFails =>
        if path in folder then AttemptResult(false, folder)
        else AttemptResult(true, folder[path := o.data])
      case CreateFails => AttemptResult(false, folder - {path})
      case TransferFails(n) =>
        AttemptResult(false, folder[path := o.data[..if n < |o.data| then n else |o.data|]])
      case NotifyFails => AttemptResult(false, folder[path := o.data])
  }

  /** The file steps touch the download folder only at the report's local
      path, whatever fault strikes. */
  lemma StoreTouchesOnlyItsPath(o: StoredObject, fault: Fault, folder: Folder)
    ensures AgreeExcept(folder, StoreReport(o, fault, folder).folder, LocalPath(o.name))
  {
  }

  /** A report is stored in full exactly when its name can be stored and
      either no fault strikes, or only the delete fails and there was no
      old copy. */
  lemma StoreAcceptsIff(o: StoredObject, fault: Fault, folder: Folder)
    ensures StoreReport(o, fault, folder).accepted <==>
      && IsStorable(o.name)
      && (fault.NoFault? || (fault.DeleteFails? && LocalPath(o.name) !in folder))
  {
  }

  /** A name the client cannot store is a miss, whatever the fault, and the
      download folder is left as it was. */
  lemma StoreRejectsUnstorable(o: StoredObject, fault: Fault, folder: Folder)
    requires !IsStorable(o.name)
    ensures StoreReport(o, fault, folder) == AttemptResult(false, folder)
  {
  }

  /** A forbidden character in a directory part of the object name, not
      only in its file name, makes the attempt a miss. */
  lemma BarInDirectoryIsRejected(updated: int, data: string, folder: Folder)
    ensures var o := StoredObject("Reports/a|b/r.txt", updated, data);
      StoreReport(o, NoFault, folder) == AttemptResult(false, folder)
  {
    var name := "Reports/a|b/r.txt";
    assert IsInvalidPathChar(name[9]);
  }

  /** One poll attempt. It never throws: every exception inside it is a
      miss. An attempt that selected nothing leaves the folder alone; one
      that selected a report runs the file steps on it. */
  function TryDownloadReport(w: AttemptWorld, minTime: int, folder: Folder): (r: AttemptResult)
    ensures Selected(w, minTime).None? ==> !r.accepted && r.folder == folder
  {
    match Selected(w, minTime)
    case None => AttemptResult(false, folder)
    case Some(o) => StoreReport(o, w.fault, folder)
  }

  /** `folder` holds, at its local path, the full content of the report
      that `w` offers, and that report was updated at or after `minTime`. */
  predicate Delivered(w: AttemptWorld, minTime: int, folder: Folder) {
    var o := Selected(w, minTime);
    && o.Some?
    && o.value.updated >= minTime
    && LocalPath(o.value.name) in folder
    && folder[LocalPath(o.value.name)] == o.value.data
  }

  /** An accepted attempt downloaded a fresh report: one updated at or after
      `minTime`, whose full content now sits at its local path. */
  lemma AcceptedAttemptDownloads(w: AttemptWorld, minTime: int, folder: Folder)
    requires TryDownloadReport(w, minTime, folder).accepted
    ensures Delivered(w, minTime, TryDownloadReport(w, minTime, folder).folder)
  {
  }

  /** The file name of a `.txt` object name is a bare name that still ends
      in `.txt`. */
  lemma FileNameKeepsSuffix(n: string)
    requires EndsWith(n, ReportSuffix)
    ensures EndsWith(FileName(n), ReportSuffix)
    ensures HasNoSeparator(FileName(n))
  {
    var name := FileName(n);
    FileNameIsBareSuffix(n);
    assert name[|name| - 4..] == n[|n| - 4..];
  }

  /** Every report the client downloads lands directly inside the download
      folder under the object's own file name, which still ends in `.txt`. */
  lemma LocalPathOfReport(o: StoredObject)
    requires IsCandidate(o)
    ensures LocalPath(o.name) == DownloadFolderPath + "\\" + FileName(o.name)
    ensures FileName(LocalPath(o.name)) == FileName(o.name)
    ensures EndsWith(LocalPath(o.name), ReportSuffix)
  {
    var name := FileName(o.name);
    FileNameKeepsSuffix(o.name);
    assert !IsRooted(name) by {
      assert !IsPathSeparator(name[0]);
      assert !IsPathSeparator(name[1]);
    }
    CombineThenFileName(DownloadFolderPath, name);
    var p := DownloadFolderPath + "\\" + name;
    assert p[|p| - 4..] == name[|name| - 4..];
  }

  /** `attempts` and `folders` record attempts made one after another on
      `worlds`, starting from `folder`: attempt `k` is `TryDownloadReport`
      on the folder the attempt before it left, and `folders[k + 1]` is the
      folder it leaves. */
  predicate Replays(worlds: seq<AttemptWorld>, minTime: int, folder: Folder,
                    attempts: seq<bool>, folders: seq<Folder>) {
    && |attempts| <= |worlds|
    && |folders| == |attempts| + 1
    && folders[0] == folder
    && forall k {:trigger TryDownloadReport(worlds[k], minTime, folders[k])} :: 0 <= k < |attempts| ==>
         TryDownloadReport(worlds[k], minTime, folders[k]) == AttemptResult(attempts[k], folders[k + 1])
  }

  /** Making no attempt replays nothing and leaves the folder as it was. */
  lemma ReplaysNothing(worlds: seq<AttemptWorld>, minTime: int, folder: Folder)
    ensures Replays(worlds, minTime, folder, [], [folder])
  {
  }

  /** The trigger-and-poll loop: up to `MaxRetries` attempts, all judged
      against the same `minTime`, stopping right after the first accepted one.
      `worlds[i]` is what attempt `i` meets. Besides the outcome it returns
      whether each attempt made accepted, the seconds the progress caption
      showed at each, and the folder before each attempt and at the end. */
  method PollForReport(worlds: seq<AttemptWorld>, minTime: int, folder: Folder)
    returns (isSuccess: bool, attempts: seq<bool>, seconds: seq<nat>, folders: seq<Folder>)
    requires |worlds| == MaxRetries
    ensures 1 <= |attempts| <= MaxRetries
    ensures |seconds| == |attempts|
    ensures forall i :: 0 <= i < |seconds| ==> seconds[i] == i * PollIntervalSeconds
    ensures |folders| == |attempts| + 1 && folders[0] == folder
    ensures forall i {:trigger TryDownloadReport(worlds[i], minTime, folders[i])} :: 0 <= i < |attempts| ==>
      && TryDownloadReport(worlds[i], minTime, folders[i]).accepted == attempts[i]
      && TryDownloadReport(worlds[i], minTime, folders[i]).folder == folders[i + 1]
    ensures forall i :: 0 <= i < |attempts| - 1 ==> !attempts[i]
    ensures isSuccess <==> attempts[|attempts| - 1]
    ensures !isSuccess ==> |attempts| == MaxRetries
    ensures isSuccess ==> Delivered(worlds[|attempts| - 1], minTime, folders[|attempts|])
    ensures (forall i :: 0 <= i < MaxRetries ==> Selected(worlds[i], minTime).None?) ==>
      !isSuccess && folders[|attempts|] == folder
  {
    var noneFresh := forall j :: 0 <= j < MaxRetries ==> Selected(worlds[j], minTime).None?;
    isSuccess := false;
    attempts := [];
    seconds := [];
    folders := [folder];
    while |attempts| < MaxRetries && !isSuccess
      invariant |attempts| <= MaxRetries
      invariant isSuccess ==> |attempts| >= 1
      invariant |seconds| == |attempts|
      invariant forall j :: 0 <= j < |seconds| ==> seconds[j] == j * PollIntervalSeconds
      invariant |folders| == |attempts| + 1 && folders[0] == folder
      invariant forall j {:trigger TryDownloadReport(worlds[j], minTime, folders[j])} :: 0 <= j < |attempts| ==>
        && TryDownloadReport(worlds[j], minTime, folders[j]).accepted == attempts[j]
        && TryDownloadReport(worlds[j], minTime, folders[j]).folder == folders[j + 1]
      invariant forall j :: 0 <= j < |attempts| - 1 ==> !attempts[j]
      invariant |attempts| >= 1 ==> (isSuccess <==> attempts[|attempts| - 1])
      invariant isSuccess ==> Delivered(worlds[|attempts| - 1], minTime, folders[|attempts|])
      invariant noneFresh ==> !isSuccess && folders[|attempts|] == folder
    {
      var i := |attempts|;
      seconds := seconds + [i * PollIntervalSeconds];
      var attempt := TryDownloadReport(worlds[i], minTime, folders[i]);
      if attempt.accepted {
        AcceptedAttemptDownloads(worlds[i], minTime, folders[i]);
      }
      attempts := attempts + [attempt.accepted];
      folders := folders + [attempt.folder];
      isSuccess := attempt.accepted;
    }
  }
}

=== FILE: shell.dfy ===
/** Shell commands as the client sees them: the text handed to `cmd.exe /c`
    and the exit code and captured streams that come back. The process
    itself is not modelled; each run is described by its `ProcessResult`. */
module Shell {
  import opened Wrappers
  import opened Text

  /** What a finished `cmd.exe /c <command>` reports. `stderr` is `None`
      where the reader hands back null. */
  datatype ProcessResult = ProcessResult(exitCode: int, stdout: string, stderr: Option<string>)

  const DeletePrefix: string := "kubectl delete job "
  const DeleteSuffix: string := " --ignore-not-found"
  const ApplyPrefix: string := "kubectl apply -f \""
  const ApplySuffix: string := "\""

  /** `kubectl delete job <jobName> --ignore-not-found` */
  function DeleteCommand(jobName: string): string {
    DeletePrefix + jobName + DeleteSuffix
  }

  /** `kubectl apply -f "<yamlPath>"`, the path between double quotes. */
  function ApplyCommand(yamlPath: string): string {
    ApplyPrefix + yamlPath + ApplySuffix
  }

  /** The text between a fixed prefix and suffix, if `s` has both. */
  function Between(s: string, prefix: string, suffix: string): Option<string> {
    if |prefix| + |suffix| <= |s| && StartsWith(s, prefix) && EndsWith(s, suffix)
    then Some(s[|prefix|..|s| - |suffix|])
    else None
  }

  /** The job a delete command names. */
  function DeletedJob(command: string): Option<string> {
    Between(command, DeletePrefix, DeleteSuffix)
  }

  /** The manifest path an apply command names. */
  function AppliedManifest(command: string): Option<string> {
    Between(command, ApplyPrefix, ApplySuffix)
  }

  lemma {:induction false} BetweenOfConcat(prefix: string, mid: string, suffix: string)
    ensures Between(prefix + mid + suffix, prefix, suffix) == Some(mid)
  {
    var s := prefix + mid + suffix;
    assert s[..|prefix|] == prefix;
    assert s[|s| - |suffix|..] == suffix;
    assert s[|prefix|..|s| - |suffix|] == mid;
  }

  /** The job name can be read back from the delete command. */
  lemma DeleteCommandRoundTrip(jobName: string)
    ensures DeletedJob(DeleteCommand(jobName)) == Some(jobName)
  {
    BetweenOfConcat(DeletePrefix, jobName, DeleteSuffix);
  }

  /** The manifest path can be read back from the apply command, so two
      different paths never produce the same command. */
  lemma ApplyCommandRoundTrip(yamlPath: string)
    ensures AppliedManifest(ApplyCommand(yamlPath)) == Some(yamlPath)
  {
    BetweenOfConcat(ApplyPrefix, yamlPath, ApplySuffix);
  }

  /** The message of the exception Form1's `RunCommand` throws. */
  function CommandErrorMessage(p: ProcessResult): string {
    "指令錯誤: " + OrEmpty(p.stderr) + "\n(輸出: " + p.stdout + ")"
  }

  /** Form1's `RunCommand`: any non-zero exit code throws, carrying both
      streams in the message; exit code 0 completes. */
  function RunCommandStrict(p: ProcessResult): (r: Outcome<string>)
    ensures r.Pass? <==> p.exitCode == 0
    ensures r.Fail? ==> r.error == CommandErrorMessage(p)
  {
    if p.exitCode != 0 then Fail(CommandErrorMessage(p)) else Pass
  }
}

=== FILE: storage.dfy ===
/** The object-store view of a poll attempt and the freshness rule the client
    applies to it (Form1.cs, `TryDownloadReport`). Timestamps are integers
    on one clock; a larger number is later. */
module Storage {
  import opened Wrappers
  import opened Text

  /** An object as a bucket listing shows it: its full name, its last update
      time, and the content a download would write. */
  datatype StoredObject = StoredObject(name: string, updated: int, data: string)

  /** The prefix the client lists and the suffix a report must carry. */
  const ReportPrefix: string := "Reports/"
  const ReportSuffix: string := ".txt"

  /** `ListObjects(bucket, prefix)`: the objects whose name starts with
      `prefix`, in the order the store lists them. */
  function ListObjects(bucket: seq<StoredObject>, prefix: string): (r: seq<StoredObject>)
    ensures |r| <= |bucket|
  {
    if |bucket| == 0 then []
    else
      var rest := ListObjects(bucket[1..], prefix);
      if StartsWith(bucket[0].name, prefix) then [bucket[0]] + rest else rest
  }

  /** The listing holds exactly the bucket's objects under `prefix`. */
  lemma {:induction false} ListObjectsFilters(bucket: seq<StoredObject>, prefix: string)
    ensures forall o :: o in ListObjects(bucket, prefix) ==> o in bucket && StartsWith(o.name, prefix)
    ensures forall o :: o in bucket && StartsWith(o.name, prefix) ==> o in ListObjects(bucket, prefix)
  {
    if |bucket| > 0 {
      ListObjectsFilters(bucket[1..], prefix);
      forall o | o in bucket && StartsWith(o.name, prefix)
        ensures o in ListObjects(bucket, prefix)
      {
        if o != bucket[0] {
          var i :| 0 <= i < |bucket| && bucket[i] == o;
          assert bucket[1..][i - 1] == o;
        }
      }
    }
  }

  /** Positions listed strictly left to right. */
  predicate Increasing(s: seq<nat>) {
    forall k, l :: 0 <= k < l < |s| ==> s[k] < s[l]
  }

  /** Every position in `s`, one further on. */
  ghost function Shift(s: seq<nat>): (r: seq<nat>)
    ensures |r| == |s| && forall k :: 0 <= k < |s| ==> r[k] == s[k] + 1
  {
    seq(|s|, k requires 0 <= k < |s| => s[k] + 1)
  }

  /** The bucket positions of the objects `ListObjects` keeps, in listing
      order. */
  ghost function ListedPositions(bucket: seq<StoredObject>, prefix: string): seq<nat> {
    if |bucket| == 0 then []
    else
      var rest := Shift(ListedPositions(bucket[1..], prefix));
      if StartsWith(bucket[0].name, prefix) then [0] + rest else rest
  }

  lemma {:induction false} ListedPositionsMatch(bucket: seq<StoredObject>, prefix: string)
    ensures var p, r := ListedPositions(bucket, prefix), ListObjects(bucket, prefix);
      |p| == |r| && forall k :: 0 <= k < |p| ==> p[k] < |bucket| && bucket[p[k]] == r[k]
  {
    if |bucket| > 0 {
      ListedPositionsMatch(bucket[1..], prefix);
      var rest, tail := ListedPositions(bucket[1..], prefix), ListObjects(bucket[1..], prefix);
      var shifted := Shift(rest);
      forall k | 0 <= k < |shifted| ensures shifted[k] < |bucket| && bucket[shifted[k]] == tail[k] {
        assert bucket[1..][rest[k]] == tail[k];
      }
      if StartsWith(bucket[0].name, prefix) {
        var p, r := [0] + shifted, [bucket[0]] + tail;
        forall k | 0 <= k < |p| ensures p[k] < |bucket| && bucket[p[k]] == r[k] {
          if k > 0 { assert p[k] == shifted[k - 1] && r[k] == tail[k - 1]; }
        }
      }
    }
  }

  lemma {:induction false} ListedPositionsIncrease(bucket: seq<StoredObject>, prefix: string)
    ensures Increasing(ListedPositions(bucket, prefix))
  {
    if |bucket| > 0 {
      ListedPositionsIncrease(bucket[1..], prefix);
      var rest := ListedPositions(bucket[1..], prefix);
      var shifted := Shift(rest);
      if StartsWith(bucket[0].name, prefix) {
        var p := [0] + shifted;
        forall k, l | 0 <= k < l < |p| ensures p[k] < p[l] {
          assert p[l] == rest[l - 1] + 1;
          if k > 0 {
            assert p[k] == rest[k - 1] + 1 && rest[k - 1] < rest[l - 1];
          }
        }
      } else {
        forall k, l | 0 <= k < l < |shifted| ensures shifted[k] < shifted[l] {
          assert rest[k] < rest[l];
        }
      }
    }
  }

  lemma {:induction false} ListedPositionsComplete(bucket: seq<StoredObject>, prefix: string)
    ensures var p := ListedPositions(bucket, prefix);
      forall i :: 0 <= i < |bucket| && StartsWith(bucket[i].name, prefix) ==> i in p
  {
    if |bucket| > 0 {
      ListedPositionsComplete(bucket[1..], prefix);
      var rest := ListedPositions(bucket[1..], prefix);
      var shifted := Shift(rest);
      forall i | 1 <= i < |bucket| && StartsWith(bucket[i].name, prefix)
        ensures i in shifted
      {
        assert bucket[1..][i - 1] == bucket[i];
        var k :| 0 <= k < |rest| && rest[k] == i - 1;
        assert shifted[k] == i;
      }
    }
  }

  /** The listing keeps the bucket's order: its k-th object is the bucket's
      object at a position that grows with k, and every bucket position under
      `prefix` is listed. So "first listed" means "first in the bucket". */
  lemma ListObjectsKeepsOrder(bucket: seq<StoredObject>, prefix: string)
    ensures var p, r := ListedPositions(bucket, prefix), ListObjects(bucket, prefix);
      && |p| == |r|
      && (forall k :: 0 <= k < |p| ==> p[k] < |bucket| && bucket[p[k]] == r[k])
      && Increasing(p)
      && (forall i :: 0 <= i < |bucket| && StartsWith(bucket[i].name, prefix) ==> i in p)
  {
    ListedPositionsMatch(bucket, prefix);
    ListedPositionsIncrease(bucket, prefix);
    ListedPositionsComplete(bucket, prefix);
  }

  /** An object the client will consider: its name ends with `.txt`. */
  predicate IsCandidate(o: StoredObject) {
    EndsWith(o.name, ReportSuffix)
  }

  /** The position of the object that `Where(.txt).OrderByDescending(updated)
      .FirstOrDefault()` picks: the latest candidate, and, because the sort
      is stable, the first listed among candidates sharing that time; `None`
      when there is no candidate. */
  function LatestCandidate(listing: seq<StoredObject>): (r: Option<nat>)
    ensures r.Some? ==> r.value < |listing|
  {
    if |listing| == 0 then None
    else
      var init := listing[..|listing| - 1];
      var prev := LatestCandidate(init);
      var last := listing[|listing| - 1];
      if !IsCandidate(last) then prev
      else if prev.None? || init[prev.value].updated < last.updated then Some(|listing| - 1)
      else prev
  }

  /** The position `LatestCandidate` picks holds a candidate at least as
      recent as every other, and strictly more recent than every candidate
      listed before it; there is none exactly when no object is a candidate. */
  lemma {:induction false} LatestCandidateIsLatest(listing: seq<StoredObject>)
    ensures var r := LatestCandidate(listing);
      && (r.None? <==> forall i :: 0 <= i < |listing| ==> !IsCandidate(listing[i]))
      && (r.Some? ==> IsCandidate(listing[r.value]))
      && (r.Some? ==> forall i :: 0 <= i < |listing| && IsCandidate(listing[i]) ==>
                        listing[i].updated <= listing[r.value].updated)
      && (r.Some? ==> forall i :: 0 <= i < r.value && IsCandidate(listing[i]) ==>
                        listing[i].updated < listing[r.value].updated)
  {
    if |listing| > 0 {
      var init := listing[..|listing| - 1];
      LatestCandidateIsLatest(init);
      assert forall i :: 0 <= i < |init| ==> init[i] == listing[i];
    }
  }

  /** The object a poll attempt would download, if any: the latest candidate
      under the report prefix, provided it is not older than `minTime`. */
  function FreshReport(bucket: seq<StoredObject>, minTime: int): Option<StoredObject> {
    var listing := ListObjects(bucket, ReportPrefix);
    match LatestCandidate(listing)
    case None => None
    case Some(k) => if listing[k].updated < minTime then None else Some(listing[k])
  }

  /** A fresh report is always a `.txt` object under `Reports/` that was in
      the bucket, updated no earlier than `minTime`, and no candidate in the
      listing is newer. */
  lemma FreshReportIsLatestTxt(bucket: seq<StoredObject>, minTime: int)
    requires FreshReport(bucket, minTime).Some?
    ensures var o := FreshReport(bucket, minTime).value;
      && o in bucket
      && StartsWith(o.name, ReportPrefix)
      && EndsWith(o.name, ReportSuffix)
      && o.updated >= minTime
      && forall p :: p in bucket && StartsWith(p.name, ReportPrefix) && IsCandidate(p) ==> p.updated <= o.updated
  {
    var listing := ListObjects(bucket, ReportPrefix);
    ListObjectsFilters(bucket, ReportPrefix);
    LatestCandidateIsLatest(listing);
    var k := LatestCandidate(listing).value;
    forall p | p in bucket && StartsWith(p.name, ReportPrefix) && IsCandidate(p)
      ensures p.updated <= listing[k].updated
    {
      var i :| 0 <= i < |bucket| && bucket[i] == p;
      var j :| 0 <= j < |listing| && listing[j] == p;
    }
  }

  /** An attempt finds a report to download exactly when some `.txt` object
      under `Reports/` has an update time at or after `minTime`. */
  lemma FreshReportIffFreshCandidate(bucket: seq<StoredObject>, minTime: int)
    ensures FreshReport(bucket, minTime).Some? <==>
      exists o :: o in bucket && StartsWith(o.name, ReportPrefix) && IsCandidate(o) && o.updated >= minTime
  {
    var listing := ListObjects(bucket, ReportPrefix);
    ListObjectsFilters(bucket, ReportPrefix);
    LatestCandidateIsLatest(listing);
    if o :| o in bucket && StartsWith(o.name, ReportPrefix) && IsCandidate(o) && o.updated >= minTime {
      var i :| 0 <= i < |bucket| && bucket[i] == o;
      var j :| 0 <= j < |listing| && listing[j] == o;
      assert LatestCandidate(listing).Some?;
    }
    if FreshReport(bucket, minTime).Some? {
      FreshReportIsLatestTxt(bucket, minTime);
    }
  }

  /** The freshness boundary is inclusive: a lone report updated exactly at
      the start time is taken, one updated a tick earlier is not. */
  lemma FreshnessBoundaryIsInclusive(o: StoredObject, start: int)
    requires StartsWith(o.name, ReportPrefix) && IsCandidate(o)
    ensures o.updated == start ==> FreshReport([o], start) == Some(o)
    ensures o.updated == start - 1 ==> FreshReport([o], start) == None
  {
    assert ListObjects([o], ReportPrefix) == [o];
  }
}

=== FILE: text.dfy ===
/** The pieces of the .NET base library the client leans on for strings and
    paths: `string.IsNullOrWhiteSpace`, ordinal prefix and suffix tests,
    `Path.GetFileName`, `Path.Combine`, and the decimal rendering of an
    integer inside an interpolated string. */
module Text {
  import opened Wrappers

  /** The characters `char.IsWhiteSpace` accepts: the Unicode space
      separators, the line and paragraph separators, and the control
      characters U+0009..U+000D, U+0085. */
  predicate IsWhiteSpace(c: char) {
    || c == ' '
    || ('\t' <= c <= '\r')
    || c == '\U{0085}'
    || c == '\U{00A0}'
    || c == '\U{1680}'
    || ('\U{2000}' <= c <= '\U{200A}')
    || c == '\U{2028}'
    || c == '\U{2029}'
    || c == '\U{202F}'
    || c == '\U{205F}'
    || c == '\U{3000}'
  }

  /** `string.IsNullOrWhiteSpace`: null, empty, or nothing but white space. */
  predicate IsNullOrWhiteSpace(s: Option<string>) {
    s.None? || forall i :: 0 <= i < |s.value| ==> IsWhiteSpace(s.value[i])
  }

  /** The text a C# interpolation hole shows for a possibly-null string. */
  function OrEmpty(s: Option<string>): string {
    if s.None? then "" else s.value
  }

  predicate StartsWith(s: string, prefix: string) {
    |prefix| <= |s| && s[..|prefix|] == prefix
  }

  predicate EndsWith(s: string, suffix: string) {
    |suffix| <= |s| && s[|s| - |suffix|..] == suffix
  }

  /** The characters .NET Framework's `Path.GetFileName` splits on: the
      directory separator, the alternative separator and the volume
      separator. */
  predicate IsPathSeparator(c: char) {
    c == '\\' || c == '/' || c == ':'
  }

  predicate HasNoSeparator(s: string) {
    forall i :: 0 <= i < |s| ==> !IsPathSeparator(s[i])
  }

  /** `Path.GetFileName`: the longest suffix of `path` free of separators. */
  function FileName(path: string): (r: string)
    ensures |r| <= |path|
  {
    if |path| == 0 then ""
    else if IsPathSeparator(path[|path| - 1]) then ""
    else FileName(path[..|path| - 1]) + [path[|path| - 1]]
  }

  /** The file name is a suffix of the path with no separator in it, and
      it is the longest such: the character before it is a separator. */
  lemma {:induction false} FileNameIsBareSuffix(path: string)
    ensures var r := FileName(path);
      && r == path[|path| - |r|..]
      && HasNoSeparator(r)
      && (|r| < |path| ==> IsPathSeparator(path[|path| - |r| - 1]))
  {
    if |path| > 0 && !IsPathSeparator(path[|path| - 1]) {
      var init := path[..|path| - 1];
      FileNameIsBareSuffix(init);
      var r0 := FileName(init);
      assert FileName(path) == r0 + [path[|path| - 1]];
      assert init[|init| - |r0|..] + [path[|path| - 1]] == path[|path| - |r0| - 1..];
    }
  }

  /** A path `Path.Combine` returns unchanged as its second argument wins:
      one starting with a separator or naming a drive. */
  predicate IsRooted(path: string) {
    || (|path| >= 1 && (path[0] == '\\' || path[0] == '/'))
    || (|path| >= 2 && path[1] == ':')
  }

  /** `Path.Combine` of two paths. */
  function PathCombine(dir: string, name: string): string {
    if |name| == 0 then dir
    else if |dir| == 0 then name
    else if IsRooted(name) then name
    else if IsPathSeparator(dir[|dir| - 1]) then dir + name
    else dir + "\\" + name
  }

  /** The file name of a path that ends in a separator followed by a bare
      name is that name. */
  lemma {:induction false} FileNameAfterSeparator(dir: string, name: string)
    requires |dir| > 0 && IsPathSeparator(dir[|dir| - 1]) && HasNoSeparator(name)
    ensures FileName(dir + name) == name
    decreases |name|
  {
    if |name| == 0 {
      assert dir + name == dir;
    } else {
      var init := name[..|name| - 1];
      FileNameAfterSeparator(dir, init);
      assert (dir + name)[..|dir + name| - 1] == dir + init;
    }
  }

  /** Taking the file name of a directory joined with a bare file name gives
      the file name back. */
  lemma CombineThenFileName(dir: string, name: string)
    requires |dir| > 0 && |name| > 0 && HasNoSeparator(name)
    ensures FileName(PathCombine(dir, name)) == name
  {
    assert !IsRooted(name) by {
      assert !IsPathSeparator(name[0]);
      if |name| >= 2 { assert !IsPathSeparator(name[1]); }
    }
    if IsPathSeparator(dir[|dir| - 1]) {
      FileNameAfterSeparator(dir, name);
    } else {
      FileNameAfterSeparator(dir + "\\", name);
      assert dir + "\\" + name == (dir + "\\") + name;
    }
  }

  function DigitChar(d: nat): char
    requires d < 10
  {
    "0123456789"[d]
  }

  /** The decimal digits of `n`, as `{n}` shows an integer in C#. */
  function NatToString(n: nat): (r: string)
    ensures |r| > 0
    ensures forall i :: 0 <= i < |r| ==> '0' <= r[i] <= '9'
  {
    if n < 10 then [DigitChar(n)]
    else NatToString(n / 10) + [DigitChar(n % 10)]
  }

  /** Reads a string of decimal digits back as a number. */
  function DigitsValue(s: string): nat
    requires forall i :: 0 <= i < |s| ==> '0' <= s[i] <= '9'
  {
    if |s| == 0 then 0
    else 10 * DigitsValue(s[..|s| - 1]) + (s[|s| - 1] as int - '0' as int)
  }

  /** Rendering a number in decimal and reading it back is the identity. */
  lemma {:induction false} NatToStringRoundTrip(n: nat)
    ensures DigitsValue(NatToString(n)) == n
  {
    if n >= 10 {
      NatToStringRoundTrip(n / 10);
      var s := NatToString(n);
      assert s[..|s| - 1] == NatToString(n / 10);
    }
  }
}

=== FILE: wrappers.dfy ===
/** Failure-carrying datatypes used throughout the model: a value that may be
    missing (a C# null), and the outcome of a step that may throw. */
module Wrappers {

  /** `None` stands for a C# `null` reference. */
  datatype Option<+T> = None | Some(value: T)

  /** The result of a computation that either yields a value or throws an
      exception carrying a message. */
  datatype Result<+R, +E> = Success(value: R) | Failure(error: E)

  /** The result of a step that yields nothing but may throw. */
  datatype Outcome<+E> = Pass | Fail(error: E) {

    /** The error, if there is one. */
    function FailureMessage(): Option<E> {
      if Fail? then Some(error) else None
    }
  }
}
